=== FILE: README.md ===
# Shopping-cart hook, modelled in Dafny

This project models the cart state machine of the RocketShoes front end. The
machine lives in `CartProvider` in `src/hooks/useCart.tsx`. The cart is an
ordered sequence of line items. Each line is a catalog product (`id`, `title`,
`price`, `image`) plus an `amount`. Three operations change the cart:

- `updateProductAmount({productId, amount})` sets the quantity of a line,
  checked against the stock service.
- `addProduct(productId)` increments a line already in the cart, or appends
  a new line with quantity 1 built from the catalog record. The request is
  checked against the stock service.
- `removeProduct(productId)` filters the line out of the cart.

An operation either sets a new cart or shows one error and leaves the cart as
it was. `updateProductAmount` can also return early without doing anything.
A provider effect writes every new cart to the `localStorage` slot, and the
provider reads that slot once when it mounts.

Each operation is a pure function. Its inputs are the current cart and the
replies of the remote requests it makes. Its result is an `Outcome`:
`Committed(cart)`, `Ignored` for the early return, or `Rejected(error)` for an
error shown through a toast. A reply is a `Lookup`: `Found(value)`,
`Missing` for a reply whose `data` is null or absent, or `Failed` for a
request that threw. Destructuring a null stock `data` throws, so for stock
both `Missing` and `Failed` are shown as `LookupFailed`. A null catalog
`data` fails the `!product` test at line 97, which is `ProductNotFound`.

Files:

- `cart_model.dfy` (`CartModel`): the data model, the invariants (unique ids,
  quantities of at least 1) and the sequence helpers the hook uses. Those
  helpers are `findIndex`, the quantity-setting `map`, the removing `filter`,
  and the new line `{...product, amount: 1}`.
- `cart_ops.dfy` (`CartOps`): the three transitions.
- `cart_properties.dfy` (`CartProperties`): guards, frame conditions,
  invariant preservation, and round trips between the operations.
- `cart_store.dfy` (`CartStore`): the provider as a state machine. It covers
  hydration, operation calls in sequence, and the storage slot.

Points of the code's behaviour that the model keeps as written:

- **Add guard.** `addProduct` refuses any stock reply of at most one unit
  (`stockAmount <= 1`, line 84). So a product with exactly one unit in stock
  can never be added, even to an empty cart
  (`CartProperties.AddRejectsLowStock`). Two adds need stock replies of at
  least 2 (`CartProperties.AddTwiceGivesTwo`).
- **Second stock request.** For a product already in the cart, `addProduct`
  calls `updateProductAmount`, which requests the stock again (lines 89-93
  and 52-54). The model gives `AddProduct` that second reply as a separate
  parameter, `recheck`.
- **Missing line on update.** An update for a product missing from the cart
  shows an error (lines 59-61); only a non-positive quantity returns
  silently (line 50). Update and remove
  use different messages, so they are different errors (`NotInCartOnUpdate`,
  `NotInCartOnRemove`).
- **Map and filter.** The update `map` and the remove `filter` act on every
  line with the id, not only on the first one. The lemmas show that on a cart
  with unique ids exactly one line is affected.
- **Appended line's id.** The appended line takes its `id` from the catalog
  record. Add keeps ids unique only when the catalog answers with the product
  that was asked for (`CartProperties.AddKeepsValid`).

## Model

| member | source | states |
|---|---|---|
| CartModel.FindIndex | src/hooks/useCart.tsx:59-60 | the index is -1 exactly when no line has the id; otherwise the line there has the id and no earlier line does |
| CartModel.SetAmount | src/hooks/useCart.tsx:63-72 | length and every id are kept; every line with the id gets the new quantity; every other line is untouched; no field other than the quantity changes |
| CartModel.Without | src/hooks/useCart.tsx:116 | the filter is never longer than the cart, and every line it keeps is a line of the cart whose id differs from the removed one |
| CartModel.NewItem | src/hooks/useCart.tsx:99-104 | the appended line has the record's id, title, price and image, and quantity 1 |
| CartModel.WithoutMembers | src/hooks/useCart.tsx:116 | the filter keeps exactly the lines of the cart whose id differs from the removed one |
| CartOps.UpdateProductAmount | src/hooks/useCart.tsx:45-76 | early return exactly when the quantity is not positive; a failed stock request or a null stock `data`, or a reply below the quantity, is refused; otherwise the update succeeds exactly when the id is in the cart; on success length and all other fields are kept and lines with the id carry the new quantity |
| CartOps.AddProduct | src/hooks/useCart.tsx:78-109 | a failed stock request, or a reply of at most one unit, is refused; an existing id commits only with its line raised by one and within the second stock reply; a new id commits only as the old cart plus the catalog record with quantity 1; a missing record is refused only for a new id |
| CartOps.RemoveProduct | src/hooks/useCart.tsx:111-120 | never an early return; refused exactly when no line has the id; on success no line has the id and the kept lines are exactly the other lines |
| CartProperties.UpdateIgnoresNonPositive | src/hooks/useCart.tsx:50 | a quantity of zero or less leaves the cart unchanged with no error, whatever the stock reply |
| CartProperties.UpdateRejectsShortStock | src/hooks/useCart.tsx:56-57 | a stock reply below the requested quantity is refused with the out-of-stock error and the cart unchanged |
| CartProperties.UpdateRejectsMissingItem | src/hooks/useCart.tsx:59-61 | with enough stock, an id not in the cart is refused with the update error and the cart unchanged |
| CartProperties.UpdateInPlace | src/hooks/useCart.tsx:63-72 | on a cart with unique ids, success replaces the quantity of the one matching line in place; nothing else changes |
| CartProperties.UpdateRoundTrip | src/hooks/useCart.tsx:45-76 | on a cart with unique ids, with both stock replies covering the quantities, updating a line to a positive quantity and then setting it back to its old positive quantity restores the original cart |
| CartProperties.UpdateKeepsValid | src/hooks/useCart.tsx:45-76 | an update keeps ids unique and quantities at least 1 |
| CartProperties.AddRejectsLowStock | src/hooks/useCart.tsx:84-85 | a stock reply of at most one unit refuses the add with the cart unchanged, even for an empty cart |
| CartProperties.AddExistingDelegates | src/hooks/useCart.tsx:87-93 | for an id in the cart, add has exactly the outcome of an update to the first matching line's quantity plus one, checked against the second stock reply |
| CartProperties.AddExistingIncrements | src/hooks/useCart.tsx:87-93 | on a valid cart, an add to an existing line commits exactly when the second stock reply covers the new quantity; the commit raises that line by one in place; otherwise the add is refused as out of stock |
| CartProperties.AddNewAppends | src/hooks/useCart.tsx:95-105 | for an id not in the cart, a missing record is refused and a failed catalog request is refused; a found record is appended once, at the end, with quantity 1, and earlier lines are unchanged |
| CartProperties.AddKeepsValid | src/hooks/useCart.tsx:78-109 | an add keeps ids unique and quantities at least 1 when the catalog answers for the id asked |
| CartProperties.RemoveRejectsMissing | src/hooks/useCart.tsx:113-114 | removing an id not in the cart is refused with the remove error and the cart unchanged |
| CartProperties.WithoutAbsent | src/hooks/useCart.tsx:116 | filtering out an id no line has gives the same cart |
| CartProperties.WithoutDropsOne | src/hooks/useCart.tsx:116 | on a cart with unique ids, the filter drops exactly the line at the id's position and keeps the rest in order |
| CartProperties.RemoveDropsExactlyTarget | src/hooks/useCart.tsx:111-120 | on a cart with unique ids, removing a present id commits the cart with exactly that line taken out and the other lines in their original order |
| CartProperties.WithoutKeepsUnique | src/hooks/useCart.tsx:116 | the filter keeps ids unique |
| CartProperties.WithoutKeepsPositive | src/hooks/useCart.tsx:116 | the filter keeps every quantity at least 1 |
| CartProperties.WithoutConcat | src/hooks/useCart.tsx:116 | filtering a concatenation gives the concatenation of the filtered parts |
| CartProperties.RemoveKeepsValid | src/hooks/useCart.tsx:111-120 | a removal keeps ids unique and quantities at least 1 |
| CartProperties.RemoveUndoesAddNew | src/hooks/useCart.tsx:95-116 | removing a product that was just appended by an add gives back the cart from before the add |
| CartProperties.AddTwiceGivesTwo | src/hooks/useCart.tsx:78-109 | on an empty cart, with every stock reply at least 2, two adds of one product leave a single line with quantity 2 |
| CartStore.Boot | src/hooks/useCart.tsx:33-43 | the initial cart is the stored value, or empty when the slot is empty; the mount effect leaves the slot holding that cart |
| CartStore.Apply | src/hooks/useCart.tsx:41-43 | a committed cart replaces the in-memory cart and is written to the slot; an early return or an error leaves both unchanged |
| CartStore.RunKeepsSynced | src/hooks/useCart.tsx:41-43 | after any sequence of calls, the slot holds the latest cart |
| CartStore.RunKeepsValid | src/hooks/useCart.tsx:45-120 | any sequence of calls from a valid cart keeps ids unique and quantities at least 1, when the catalog answers for the ids asked |
| CartStore.ReloadRestoresCart | src/hooks/useCart.tsx:33-43 | re-mounting from the slot after any sequence of calls restores the same cart and slot |

## Left out

- React machinery: the context, the `useState`/`useEffect`/`useContext` hooks and the provider JSX (lines 1-32 and 122-135). `CartStore` reduces the state and the storage effect to a state machine.
- `localStorage` and JSON: the slot holds a `Cart` value, not a string. Parsing is not modelled. In the code, a malformed stored string makes `JSON.parse` throw when the provider mounts. An empty string counts as an empty slot, which the model's `None` covers.
- HTTP requests: `api.get` for stock (lines 53, 81) and for the product (line 95). Their replies are parameters (`Lookup`). A stock `data` that is present but has no `amount` is not modelled: the comparisons at lines 56 and 84 are then false and the call goes on. Likewise a catalog `data` that is truthy but not a full record is taken as `Found`.
- Toast notifications (lines 74, 107, 118): each shown message is one `CartError`. The message texts are not modelled.
- Async interleaving and stale closures: the guards read the captured `cart` and the updates read `prev`. The model treats both as the same cart, so it covers sequential calls only.
- Display fields: `title`, `price` and `image` are carried through and never interpreted. `price` is a `real`.
- Quantities, stock replies and ids are mathematical integers. Fractional values, NaN and Infinity, and integers above 2^53 are outside the model. Above 2^53, JavaScript numbers lose integer precision, so `cart[index].amount + 1` at line 92 can give back the same number.
- CartProperties.AddExistingIncrements: "raises that line by one" holds for mathematical integers. For a quantity of 2^53 or more, the code's `amount + 1` (line 92) may not change the number, so the committed line keeps its old quantity; the model does not cover that.
- CartStore.RunKeepsValid: requires the hydrated cart to be valid. The code does not check the stored value when it mounts.

=== FILE: cart_model.dfy ===
/**
 Data model of the shopping-cart hook: catalog products, cart line items,
 the replies of the remote lookups, the errors the hook reports, and the
 sequence helpers (`findIndex`, `map`, `filter`, append) the operations use.
 */
module CartModel {

  /** A catalog record. Only `id` is interpreted; the display fields are
      payload that the cart carries through unchanged. */
  datatype Product = Product(id: int, title: string, price: real, image: string)

  /** A cart line: the catalog fields plus the quantity. */
  datatype CartItem = CartItem(id: int, title: string, price: real, image: string, amount: int)

  /** The cart is an ordered sequence of line items. */
  type Cart = seq<CartItem>

  datatype Option<+T> = None | Some(value: T)

  /** The reply of a remote lookup: its `data`, a `data` that is null or
      absent, or a request that threw. */
  datatype Lookup<+T> = Found(value: T) | Missing | Failed

  /** The failures the hook shows to the user; each operation shows at most one. */
  datatype CartError =
    | OutOfStock          // the stock reply refuses the quantity (add guard or update check)
    | NotInCartOnUpdate   // quantity update for an id the cart does not hold
    | ProductNotFound     // the catalog returned no record for a new product
    | NotInCartOnRemove   // removal of an id the cart does not hold
    | LookupFailed        // a stock or catalog request threw, or the stock `data` was null or absent

  /** What one operation does to the cart: a new cart is set, the call returns
      early without effect, or an error is shown and the cart is left alone. */
  datatype Outcome = Committed(cart: Cart) | Ignored | Rejected(error: CartError)

  /** The cart after an operation with outcome `o` ran on `current`. */
  function Next(current: Cart, o: Outcome): (r: Cart)
    ensures !o.Committed? ==> r == current
    ensures o.Committed? ==> r == o.cart
  {
    match o
    case Committed(c) => c
    case Ignored => current
    case Rejected(_) => current
  }

  /** Some line of the cart has product id `id`. */
  ghost predicate HasId(cart: Cart, id: int) {
    exists k :: 0 <= k < |cart| && cart[k].id == id
  }

  /** No two lines share a product id. */
  ghost predicate UniqueIds(cart: Cart) {
    forall i, j :: 0 <= i < j < |cart| ==> cart[i].id != cart[j].id
  }

  /** Every line holds at least one unit. */
  ghost predicate PositiveAmounts(cart: Cart) {
    forall i :: 0 <= i < |cart| ==> cart[i].amount >= 1
  }

  /** The invariant the cart is meant to keep. */
  ghost predicate Valid(cart: Cart) {
    UniqueIds(cart) && PositiveAmounts(cart)
  }

  /** `cart.findIndex(p => p.id === id)`: the position of the first line with
      that id, or -1 when there is none. */
  function FindIndex(cart: Cart, id: int): (i: int)
    ensures -1 <= i < |cart|
    ensures i == -1 <==> !HasId(cart, id)
    ensures 0 <= i ==> cart[i].id == id
    ensures 0 <= i ==> forall k :: 0 <= k < i ==> cart[k].id != id
  {
    if |cart| == 0 then -1
    else if cart[0].id == id then 0
    else
      var j := FindIndex(cart[1..], id);
      if j < 0 then -1 else j + 1
  }

  /** `cart.map(p => p.id === id ? {...p, amount} : p)`: every line with
      that id gets the new quantity, and only its quantity. */
  function SetAmount(cart: Cart, id: int, amount: int): (r: Cart)
    ensures |r| == |cart|
    ensures forall i :: 0 <= i < |r| ==> r[i].id == cart[i].id
    ensures forall i :: 0 <= i < |r| && cart[i].id != id ==> r[i] == cart[i]
    ensures forall i :: 0 <= i < |r| && cart[i].id == id ==> r[i].amount == amount
    ensures forall i :: 0 <= i < |r| ==> r[i].(amount := 0) == cart[i].(amount := 0)
  {
    seq(|cart|, i requires 0 <= i < |cart| =>
      if cart[i].id == id then cart[i].(amount := amount) else cart[i])
  }

  /** `cart.filter(p => p.id !== id)`: the lines with another id, in their
      original order. */
  function Without(cart: Cart, id: int): (r: Cart)
    ensures |r| <= |cart|
    ensures forall i :: 0 <= i < |r| ==> r[i].id != id && r[i] in cart
  {
    if |cart| == 0 then []
    else
      var rest := Without(cart[1..], id);
      if cart[0].id == id then rest else [cart[0]] + rest
  }

  /** The lines kept by the filter are exactly the lines with another id. */
  lemma {:induction false} WithoutMembers(cart: Cart, id: int)
    ensures forall x :: x in Without(cart, id) <==> x in cart && x.id != id
    decreases |cart|
  {
    if |cart| > 0 {
      WithoutMembers(cart[1..], id);
      assert cart == [cart[0]] + cart[1..];
    }
  }

  /** `{...product, amount: 1}`: a fresh cart line for a catalog record. */
  function NewItem(p: Product): (item: CartItem)
    ensures item.id == p.id && item.amount == 1
    ensures Product(item.id, item.title, item.price, item.image) == p
  {
    CartItem(p.id, p.title, p.price, p.image, 1)
  }
}

=== FILE: cart_ops.dfy ===
/**
 The three cart transitions of `CartProvider`, with the remote lookups
 replaced by their replies. Each returns the outcome the hook reaches: a new
 cart, an early return, or the error it shows.
 */
module CartOps {
  import opened CartModel

  /** `updateProductAmount({productId: id, amount})`, where `stock` is the
      reply of the stock request. Non-positive quantities return before any
      request; otherwise the stock check comes before the membership check. */
  function UpdateProductAmount(cart: Cart, id: int, amount: int, stock: Lookup<int>): (o: Outcome)
    ensures o.Ignored? <==> amount <= 0
    ensures o.Rejected? && o.error == LookupFailed <==> amount > 0 && !stock.Found?
    ensures o.Rejected? && o.error == OutOfStock <==> amount > 0 && stock.Found? && stock.value < amount
    ensures o.Rejected? ==> o.error in {LookupFailed, OutOfStock, NotInCartOnUpdate}
    ensures o.Committed? <==> amount > 0 && stock.Found? && stock.value >= amount && HasId(cart, id)
    ensures o.Committed? ==> |o.cart| == |cart|
    ensures o.Committed? ==> forall i :: 0 <= i < |cart| ==>
      o.cart[i].(amount := 0) == cart[i].(amount := 0) &&
      o.cart[i].amount == (if cart[i].id == id then amount else cart[i].amount)
  {
    if amount <= 0 then Ignored
    else match stock
      case Missing => Rejected(LookupFailed)
      case Failed => Rejected(LookupFailed)
      case Found(stockAmount) =>
        if stockAmount < amount then Rejected(OutOfStock)
        else
          var index := FindIndex(cart, id);
          if index < 0 then Rejected(NotInCartOnUpdate)
          else Committed(SetAmount(cart, id, amount))
  }

  /** `addProduct(id)`. `stock` is the reply of the first stock request;
      `recheck` is the reply of the second one that the delegated
      `updateProductAmount` makes for an id already in the cart; `catalog` is
      the reply of the product request made for an id not yet in the cart. */
  function AddProduct(cart: Cart, id: int, stock: Lookup<int>, recheck: Lookup<int>,
                      catalog: Lookup<Product>): (o: Outcome)
    ensures !stock.Found? ==> o == Rejected(LookupFailed)
    ensures stock.Found? && stock.value <= 1 ==> o == Rejected(OutOfStock)
    ensures o.Committed? ==> stock.Found? && stock.value > 1
    ensures o.Committed? && HasId(cart, id) ==>
      |o.cart| == |cart| && recheck.Found? &&
      (exists k :: 0 <= k < |cart| && cart[k].id == id &&
                   o.cart[k].amount == cart[k].amount + 1 <= recheck.value)
    ensures o.Committed? && !HasId(cart, id) ==>
      catalog.Found? && o.cart == cart + [NewItem(catalog.value)]
    ensures o.Rejected? && o.error == ProductNotFound ==> !HasId(cart, id) && catalog.Missing?
  {
    match stock
    case Missing => Rejected(LookupFailed)
    case Failed => Rejected(LookupFailed)
    case Found(stockAmount) =>
      if stockAmount <= 1 then Rejected(OutOfStock)
      else
        var index := FindIndex(cart, id);
        if index >= 0 then UpdateProductAmount(cart, id, cart[index].amount + 1, recheck)
        else match catalog
          case Failed => Rejected(LookupFailed)
          case Missing => Rejected(ProductNotFound)
          case Found(product) => Committed(cart + [NewItem(product)])
  }

  /** `removeProduct(id)`: no request; fails when no line has the id,
      otherwise filters out the lines with that id. */
  function RemoveProduct(cart: Cart, id: int): (o: Outcome)
    ensures !o.Ignored?
    ensures o.Rejected? <==> !HasId(cart, id)
    ensures o.Rejected? ==> o.error == NotInCartOnRemove
    ensures o.Committed? ==> |o.cart| <= |cart| && !HasId(o.cart, id)
    ensures o.Committed? ==> forall x :: x in o.cart <==> x in cart && x.id != id
  {
    var index := FindIndex(cart, id);
    if index < 0 then Rejected(NotInCartOnRemove)
    else
      WithoutMembers(cart, id);
      Committed(Without(cart, id))
  }
}

=== FILE: cart_properties.dfy ===
/**
 Properties of the cart transitions: the guards of each operation, the
 frame of each successful change, the invariants (unique ids, positive
 quantities) they keep, and how the operations undo one another.
 */
module CartProperties {
  import opened CartModel
  import opened CartOps

  // ---------------------------------------------------------------------
  // updateProductAmount

  /** A non-positive quantity returns before the stock request: whatever the
      reply would have been, the cart stays as it is and nothing is shown. */
  lemma UpdateIgnoresNonPositive(cart: Cart, id: int, amount: int, stock: Lookup<int>)
    requires amount <= 0
    ensures UpdateProductAmount(cart, id, amount, stock) == Ignored
    ensures Next(cart, UpdateProductAmount(cart, id, amount, stock)) == cart
  {
  }

  /** A stock reply below the requested quantity is refused, whether or not
      the cart holds the product: the stock check comes first. */
  lemma UpdateRejectsShortStock(cart: Cart, id: int, amount: int, stockAmount: int)
    requires 0 < amount && stockAmount < amount
    ensures UpdateProductAmount(cart, id, amount, Found(stockAmount)) == Rejected(OutOfStock)
    ensures Next(cart, UpdateProductAmount(cart, id, amount, Found(stockAmount))) == cart
  {
  }

  /** With enough stock, an id the cart does not hold is refused. */
  lemma UpdateRejectsMissingItem(cart: Cart, id: int, amount: int, stockAmount: int)
    requires 0 < amount <= stockAmount
    requires forall k :: 0 <= k < |cart| ==> cart[k].id != id
    ensures UpdateProductAmount(cart, id, amount, Found(stockAmount)) == Rejected(NotInCartOnUpdate)
    ensures Next(cart, UpdateProductAmount(cart, id, amount, Found(stockAmount))) == cart
  {
  }

  /** On a cart with unique ids, a successful update replaces the quantity of
      the one line with that id, in place; length, order and every other line
      and field stay as they were. */
  lemma UpdateInPlace(cart: Cart, id: int, k: int, amount: int, stockAmount: int)
    requires UniqueIds(cart)
    requires 0 <= k < |cart| && cart[k].id == id
    requires 0 < amount <= stockAmount
    ensures UpdateProductAmount(cart, id, amount, Found(stockAmount))
         == Committed(cart[k := cart[k].(amount := amount)])
  {
  }

  /** On a cart with unique ids, setting a line back to the quantity it had
      before undoes an update, when both stock replies cover the quantities. */
  lemma UpdateRoundTrip(cart: Cart, id: int, k: int, amount: int, stock1: int, stock2: int)
    requires UniqueIds(cart)
    requires 0 <= k < |cart| && cart[k].id == id
    requires 0 < amount <= stock1
    requires 0 < cart[k].amount <= stock2
    ensures var o := UpdateProductAmount(cart, id, amount, Found(stock1));
            o.Committed? &&
            UpdateProductAmount(o.cart, id, cart[k].amount, Found(stock2)) == Committed(cart)
  {
  }

  /** An update keeps unique ids and positive quantities. */
  lemma UpdateKeepsValid(cart: Cart, id: int, amount: int, stock: Lookup<int>)
    requires Valid(cart)
    ensures Valid(Next(cart, UpdateProductAmount(cart, id, amount, stock)))
  {
  }

  // ---------------------------------------------------------------------
  // addProduct

  /** The add guard refuses every stock reply of at most one unit, so a
      product with exactly one unit left can never be added, even to an empty
      cart; the cart is left alone. */
  lemma AddRejectsLowStock(cart: Cart, id: int, stockAmount: int, recheck: Lookup<int>,
                           catalog: Lookup<Product>)
    requires stockAmount <= 1
    ensures AddProduct(cart, id, Found(stockAmount), recheck, catalog) == Rejected(OutOfStock)
    ensures Next(cart, AddProduct(cart, id, Found(stockAmount), recheck, catalog)) == cart
  {
  }

  /** For an id already in the cart, adding is exactly an update to the
      quantity of its first line plus one, checked against the second stock
      reply; the catalog is not consulted. */
  lemma AddExistingDelegates(cart: Cart, id: int, k: int, stockAmount: int,
                             recheck: Lookup<int>, catalog: Lookup<Product>)
    requires 0 <= k < |cart| && cart[k].id == id
    requires forall j :: 0 <= j < k ==> cart[j].id != id
    requires stockAmount > 1
    ensures AddProduct(cart, id, Found(stockAmount), recheck, catalog)
         == UpdateProductAmount(cart, id, cart[k].amount + 1, recheck)
  {
  }

  /** On a valid cart holding the id, an add increments that line in place
      exactly when the second stock reply covers the new quantity, and is
      otherwise refused with the cart unchanged. */
  lemma AddExistingIncrements(cart: Cart, id: int, k: int, stockAmount: int, recheckAmount: int,
                              catalog: Lookup<Product>)
    requires Valid(cart)
    requires 0 <= k < |cart| && cart[k].id == id
    requires stockAmount > 1
    ensures var o := AddProduct(cart, id, Found(stockAmount), Found(recheckAmount), catalog);
            (o.Committed? <==> cart[k].amount + 1 <= recheckAmount) &&
            (o.Committed? ==> o.cart == cart[k := cart[k].(amount := cart[k].amount + 1)]) &&
            (!o.Committed? ==> o == Rejected(OutOfStock))
  {
  }

  /** For an id not in the cart, a missing catalog record is refused with the
      cart unchanged, and a present one is appended as a single new line with
      quantity one after all the existing lines. */
  lemma AddNewAppends(cart: Cart, id: int, stockAmount: int, recheck: Lookup<int>,
                      catalog: Lookup<Product>)
    requires forall k :: 0 <= k < |cart| ==> cart[k].id != id
    requires stockAmount > 1
    ensures var o := AddProduct(cart, id, Found(stockAmount), recheck, catalog);
            (catalog.Missing? ==> o == Rejected(ProductNotFound)) &&
            (catalog.Failed? ==> o == Rejected(LookupFailed)) &&
            (catalog.Found? ==> o.Committed? && |o.cart| == |cart| + 1 &&
                                o.cart[..|cart|] == cart &&
                                o.cart[|cart|] == NewItem(catalog.value))
  {
  }

  /** An add keeps unique ids and positive quantities, provided the catalog
      answers with the record of the product that was asked for (the appended
      line takes its id from the record). */
  lemma AddKeepsValid(cart: Cart, id: int, stock: Lookup<int>, recheck: Lookup<int>,
                      catalog: Lookup<Product>)
    requires Valid(cart)
    requires catalog.Found? ==> catalog.value.id == id
    ensures Valid(Next(cart, AddProduct(cart, id, stock, recheck, catalog)))
  {
  }

  // ---------------------------------------------------------------------
  // removeProduct

  /** Removing an id the cart does not hold is refused with the cart unchanged. */
  lemma RemoveRejectsMissing(cart: Cart, id: int)
    requires forall k :: 0 <= k < |cart| ==> cart[k].id != id
    ensures RemoveProduct(cart, id) == Rejected(NotInCartOnRemove)
    ensures Next(cart, RemoveProduct(cart, id)) == cart
  {
  }

  /** Filtering an id no line has leaves the cart as it is. */
  lemma {:induction false} WithoutAbsent(cart: Cart, id: int)
    requires forall j :: 0 <= j < |cart| ==> cart[j].id != id
    ensures Without(cart, id) == cart
    decreases |cart|
  {
    if |cart| > 0 {
      forall j | 0 <= j < |cart[1..]| ensures cart[1..][j].id != id {
        assert cart[1..][j] == cart[j + 1];
      }
      WithoutAbsent(cart[1..], id);
      assert [cart[0]] + cart[1..] == cart;
    }
  }

  /** On a cart with unique ids, filtering an id out drops exactly the line at
      its position and keeps the others in their original order. */
  lemma {:induction false} WithoutDropsOne(cart: Cart, id: int, k: int)
    requires UniqueIds(cart)
    requires 0 <= k < |cart| && cart[k].id == id
    ensures Without(cart, id) == cart[..k] + cart[k+1..]
    decreases |cart|
  {
    if k == 0 {
      forall j | 0 <= j < |cart[1..]| ensures cart[1..][j].id != id {
        assert cart[1..][j] == cart[j + 1];
      }
      WithoutAbsent(cart[1..], id);
      assert cart[..0] + cart[1..] == cart[1..];
    } else {
      TailKeepsUnique(cart);
      WithoutDropsOne(cart[1..], id, k - 1);
      assert cart[1..][..k-1] + cart[1..][k..] == cart[1..k] + cart[k+1..];
      assert [cart[0]] + (cart[1..k] + cart[k+1..]) == cart[..k] + cart[k+1..];
    }
  }

  /** On a cart with unique ids, a removal of a present id commits the cart
      with exactly that line taken out and the rest in their original order. */
  lemma RemoveDropsExactlyTarget(cart: Cart, id: int, k: int)
    requires UniqueIds(cart)
    requires 0 <= k < |cart| && cart[k].id == id
    ensures RemoveProduct(cart, id) == Committed(cart[..k] + cart[k+1..])
  {
    WithoutDropsOne(cart, id, k);
  }

  /** A cart with unique ids stays so after dropping its first line. */
  lemma TailKeepsUnique(cart: Cart)
    requires |cart| > 0 && UniqueIds(cart)
    ensures UniqueIds(cart[1..])
  {
  }

  /** Filtering keeps ids unique. */
  lemma {:induction false} WithoutKeepsUnique(cart: Cart, id: int)
    requires UniqueIds(cart)
    ensures UniqueIds(Without(cart, id))
    decreases |cart|
  {
    if |cart| > 0 {
      var tail := cart[1..];
      TailKeepsUnique(cart);
      WithoutKeepsUnique(tail, id);
      WithoutMembers(tail, id);
      var rest := Without(tail, id);
      if cart[0].id != id {
        var r := [cart[0]] + rest;
        forall j | 0 < j < |r| ensures r[0].id != r[j].id {
          assert r[j] == rest[j - 1];
          assert r[j] in tail;
          var m :| 0 <= m < |tail| && tail[m] == r[j];
          assert tail[m] == cart[m + 1];
        }
        forall i, j | 0 < i < j < |r| ensures r[i].id != r[j].id {
          assert r[i] == rest[i - 1] && r[j] == rest[j - 1];
        }
      }
    }
  }

  /** Filtering keeps every quantity positive: each kept line is a line of
      the original cart. */
  lemma WithoutKeepsPositive(cart: Cart, id: int)
    requires PositiveAmounts(cart)
    ensures PositiveAmounts(Without(cart, id))
  {
  }

  /** Filtering a concatenation filters each part. */
  lemma {:induction false} WithoutConcat(a: Cart, b: Cart, id: int)
    ensures Without(a + b, id) == Without(a, id) + Without(b, id)
    decreases |a|
  {
    if |a| == 0 {
      assert a + b == b;
    } else {
      var ab := a + b;
      assert ab[0] == a[0];
      assert ab[1..] == a[1..] + b;
      WithoutConcat(a[1..], b, id);
      if a[0].id != id {
        assert Without(ab, id) == [a[0]] + (Without(a[1..], id) + Without(b, id));
        assert Without(a, id) == [a[0]] + Without(a[1..], id);
      }
    }
  }

  /** A removal keeps unique ids and positive quantities. */
  lemma RemoveKeepsValid(cart: Cart, id: int)
    requires Valid(cart)
    ensures Valid(Next(cart, RemoveProduct(cart, id)))
  {
    WithoutKeepsUnique(cart, id);
    WithoutKeepsPositive(cart, id);
  }

  /** Removing a product that an add has just appended gives back the cart
      as it was before the add. */
  lemma RemoveUndoesAddNew(cart: Cart, id: int, stockAmount: int, recheck: Lookup<int>, p: Product)
    requires forall k :: 0 <= k < |cart| ==> cart[k].id != id
    requires stockAmount > 1 && p.id == id
    ensures var o := AddProduct(cart, id, Found(stockAmount), recheck, Found(p));
            o.Committed? && RemoveProduct(o.cart, id) == Committed(cart)
  {
    var c := cart + [NewItem(p)];
    assert c[|cart|].id == id;
    WithoutConcat(cart, [NewItem(p)], id);
    assert Without([NewItem(p)], id) == [];
    WithoutAbsent(cart, id);
  }

  /** Two adds of the same product to an empty cart, with at least two units
      in stock on every reply, leave one line with quantity two. */
  lemma AddTwiceGivesTwo(id: int, s1: int, s2: int, s3: int, p: Product, catalog: Lookup<Product>)
    requires p.id == id && s1 > 1 && s2 > 1 && s3 >= 2
    ensures var o1 := AddProduct([], id, Found(s1), Missing, Found(p));
            o1 == Committed([NewItem(p)]) &&
            AddProduct(o1.cart, id, Found(s2), Found(s3), catalog)
              == Committed([NewItem(p).(amount := 2)])
  {
  }
}

=== FILE: cart_store.dfy ===
/**
 The provider around the transitions: the cart is hydrated once from the
 storage slot, changed only through the three operations, and written back
 to the slot by an effect whenever a new cart is set.
 */
module CartStore {
  import opened CartModel
  import opened CartOps
  import CartProperties

  /** One call of an operation, together with the replies its requests got. */
  datatype Action =
    | Add(id: int, stock: Lookup<int>, recheck: Lookup<int>, catalog: Lookup<Product>)
    | Remove(id: int)
    | Update(id: int, amount: int, stock: Lookup<int>)

  /** The in-memory cart and the value held in the storage slot. */
  datatype Store = Store(cart: Cart, saved: Option<Cart>)

  /** The outcome of an action on a cart. */
  function Perform(cart: Cart, a: Action): Outcome {
    match a
    case Add(id, stock, recheck, catalog) => AddProduct(cart, id, stock, recheck, catalog)
    case Remove(id) => RemoveProduct(cart, id)
    case Update(id, amount, stock) => UpdateProductAmount(cart, id, amount, stock)
  }

  /** The slot holds exactly the in-memory cart. */
  ghost predicate Synced(s: Store) {
    s.saved == Some(s.cart)
  }

  /** The catalog answers an add with the record of the product asked for. */
  ghost predicate FaithfulCatalog(a: Action) {
    a.Add? && a.catalog.Found? ==> a.catalog.value.id == a.id
  }

  /** Mounting the provider: the cart starts as the stored value, or empty
      when the slot is empty, and the mount effect writes it back. */
  function Boot(saved: Option<Cart>): (s: Store)
    ensures Synced(s)
    ensures saved.Some? ==> s.cart == saved.value
    ensures saved.None? ==> s.cart == []
  {
    var cart := match saved case Some(c) => c case None => [];
    Store(cart, Some(cart))
  }

  /** One operation call: a committed cart replaces the in-memory cart and is
      written to the slot; an early return or a shown error changes neither. */
  function Apply(s: Store, a: Action): (t: Store)
    ensures t.cart == Next(s.cart, Perform(s.cart, a))
    ensures Perform(s.cart, a).Committed? ==> t.saved == Some(t.cart)
    ensures !Perform(s.cart, a).Committed? ==> t.saved == s.saved
  {
    var o := Perform(s.cart, a);
    if o.Committed? then Store(Next(s.cart, o), Some(Next(s.cart, o))) else s
  }

  /** A sequence of operation calls, one after another. */
  function Run(s: Store, actions: seq<Action>): Store
    decreases |actions|
  {
    if |actions| == 0 then s else Run(Apply(s, actions[0]), actions[1..])
  }

  /** After any sequence of calls the slot holds the latest cart. */
  lemma {:induction false} RunKeepsSynced(s: Store, actions: seq<Action>)
    requires Synced(s)
    ensures Synced(Run(s, actions))
    decreases |actions|
  {
    if |actions| > 0 {
      RunKeepsSynced(Apply(s, actions[0]), actions[1..]);
    }
  }

  /** Any sequence of calls keeps ids unique and quantities positive, as long
      as the cart started so and the catalog answers for the ids asked. */
  lemma {:induction false} RunKeepsValid(s: Store, actions: seq<Action>)
    requires Valid(s.cart)
    requires forall i :: 0 <= i < |actions| ==> FaithfulCatalog(actions[i])
    ensures Valid(Run(s, actions).cart)
    decreases |actions|
  {
    if |actions| > 0 {
      var a := actions[0];
      assert FaithfulCatalog(a);
      match a {
        case Add(id, stock, recheck, catalog) =>
          CartProperties.AddKeepsValid(s.cart, id, stock, recheck, catalog);
        case Remove(id) =>
          CartProperties.RemoveKeepsValid(s.cart, id);
        case Update(id, amount, stock) =>
          CartProperties.UpdateKeepsValid(s.cart, id, amount, stock);
      }
      assert forall i :: 0 <= i < |actions[1..]| ==> FaithfulCatalog(actions[1..][i]) by {
        forall i | 0 <= i < |actions[1..]| ensures FaithfulCatalog(actions[1..][i]) {
          assert actions[1..][i] == actions[i + 1];
        }
      }
      RunKeepsValid(Apply(s, a), actions[1..]);
    }
  }

  /** Reloading the page after any sequence of calls restores the cart the
      session ended with. */
  lemma ReloadRestoresCart(saved: Option<Cart>, actions: seq<Action>)
    ensures var s := Run(Boot(saved), actions);
            Boot(s.saved) == s
  {
    RunKeepsSynced(Boot(saved), actions);
  }
}
